=== FILE: README.md ===
# Les Charmettes content core, in Dafny

This project models the three pieces of the Les Charmettes site that hold real logic.

- **The content service** (`services/contentService.js`). It serves the site's JSON collections (`tarifs.json`, `articles.json`, `equipe.json`) through a per-file cache. On every read of a cached file the cache compares the file's modification time with the one it recorded. It evicts an entry whose probe fails. A write installs the written payload in the cache (write-through).
- **The tariff editor's update path** (`controllers/adminController.js`).
  - `normalizePriceValue` sorts each submitted price into one of four outcomes: missing, empty, invalid, or a value rounded to the cent.
  - `updateTarifs` validates every *stored* tariff against the submission and collects every failure in stored order. It writes only when nothing failed.
- **The admin gate** (`middlewares/basicAuth.js`). It parses an HTTP Basic `Authorization` header, splitting the user-pass at the first colon as in section 2 of RFC 7617. It then compares both parts with the configured credentials.

Everything is a pure function over immutable values.

- The file system is a value `Disk` with three parts:
  - the existing files, each with an mtime and a text;
  - the paths whose every access fails with an I/O error, `stat` included;
  - the locked paths, which `stat` still reports but whose contents can be neither read nor written (mode 000, a directory in place of the file).
- The cache is a `map<Path, Entry>`.
- Each service call returns the new cache (and disk) together with what the JavaScript returns or throws.
- These are parameters:
  - the JSON codec (`parse`, `serialize`);
  - `Number.parseFloat`;
  - base64 decoding;
  - the clock reading a write records as its mtime.

Modules: `Wrappers` (Option/Result), `Text` (the JavaScript string primitives used: `trim`, `indexOf`, first-occurrence `replace`, `startsWith`), `ContentService`, `PriceNormalizer`, `AdminController`, `BasicAuth`.

The model follows the code in these details:
- The decimal-comma rule replaces only the first comma. `"1,2,3"` reaches the parser as `"1.2,3"`.
- Rounding is `Math.round`, which rounds half up.
- `fs.writeFile` is not an atomic replace. The model still treats each call as one step (see Left out).

`config.js` exports neither `ADMIN_USER` nor `ADMIN_PASSWORD`, so `basicAuth` destructures two `undefined` values and answers 500 to every request. The model takes the credentials as parameters. `BasicAuth.UnconfiguredAlwaysFails` states the always-500 outcome.

## Model

| member | source | states |
|---|---|---|
| `ContentService.Stat` | services/contentService.js:13 | `fs.stat` succeeds exactly on an existing file whose path is not broken (a locked file included) and reports its mtime; a broken path fails with an I/O error and a missing file with not-found (ENOENT) |
| `ContentService.ReadFile` | services/contentService.js:24 | `fs.readFile` yields the file's text exactly when the stat succeeds and the file is not locked; it fails with the stat's error when the stat fails, and with an I/O error on a locked file the stat still reports |
| `ContentService.WriteFile` | services/contentService.js:36 | `fs.writeFile` fails exactly on a broken or locked path; otherwise it creates or replaces that one file with the new text and mtime |
| `ContentService.UncachedRead` | services/contentService.js:23-30 | the reference read without a cache: it succeeds exactly when the file can be stat'ed, is not locked and its text parses, and returns that parse; a failing `readFile` is reported with its own error, and text that does not parse fails with a parse error |
| `ContentService.Reload` | services/contentService.js:23-30 | the reload returns what an uncached read returns; on success the entry becomes {stat mtime, parsed payload}; a read, stat or parse failure leaves the cache exactly as it was (a stale entry is neither replaced nor removed) |
| `ContentService.ReadJson` | services/contentService.js:7-31 | only the entry for the read path can change; same mtime returns the cached payload with the cache unchanged; a failing probe of an existing entry evicts exactly that entry and propagates the error; a miss or mismatch behaves as a reload; a returned payload is the one now cached under the file's current mtime |
| `ContentService.Payload` | services/contentService.js:35 | the text written is the serialisation followed by exactly one newline |
| `ContentService.WriteJson` | services/contentService.js:33-40 | succeeds exactly when the path is neither broken nor locked; then it returns the written data, installs {new mtime, data} for that path only, and the file holds the serialised data plus a newline; a failed write leaves cache and disk unchanged |
| `ContentService.ClearCache` | services/contentService.js:42-44 | the cache holds no entry at all |
| `ContentService.ReadJsonIsTransparent` | services/contentService.js:9-30 | over a coherent cache, `readJson` of a file that is not locked returns exactly what a cache-less read returns |
| `ContentService.LockedFileServedFromCache` | services/contentService.js:13-15 | a locked file whose mtime still matches keeps being served from the cache, while a cache-less read of it fails |
| `ContentService.FailedReloadKeepsStaleEntry` | services/contentService.js:13-26 | when the mtime has changed but the file can no longer be read, the read throws and the stale entry is neither replaced nor evicted |
| `ContentService.ReadJsonKeepsCoherence` | services/contentService.js:9-30 | every `readJson` outcome (hit, eviction, reload, failed reload) keeps the cache coherent with the disk |
| `ContentService.WriteJsonKeepsCoherence` | services/contentService.js:33-39 | a write keeps the cache coherent when the written text parses back to the payload it caches; the source itself does not ensure that |
| `ContentService.ExternalEditKeepsCoherence` | services/contentService.js:13-16 | an outside edit that gives the file an mtime different from the cached one keeps the cache coherent |
| `ContentService.ReadAfterWrite` | services/contentService.js:9-39 | a read straight after a successful write returns exactly the written data from the cache, whatever the codec does |
| `ContentService.ReadSeesExternalEdit` | services/contentService.js:13-30 | after an outside edit with a new mtime, the next read reloads, returns the edited content and caches it under the new mtime |
| `ContentService.SameMtimeEditIsMissed` | services/contentService.js:13-16 | an outside edit that keeps the cached mtime is not seen: the stale payload is returned and the cache is no longer coherent |
| `ContentService.ReadAfterClearReloads` | services/contentService.js:42-44 | after `clearCache` every read returns what a cache-less read returns |
| `ContentService.GetTarifs` | services/contentService.js:46-48 | reads `tarifs.json`; no other cache entry changes, and a returned list is what the cache now holds under the file's current mtime |
| `ContentService.UpdateTarifs` | services/contentService.js:50-52 | writes `tarifs.json`; no other file or entry changes, and which paths are broken or locked does not change; it succeeds exactly when that path is neither broken nor locked, caching the list and writing its payload; a failure changes nothing |
| `ContentService.GetArticles` | services/contentService.js:54-56 | reads `articles.json`; no other cache entry changes, and a returned payload is what the cache now holds under the file's current mtime |
| `ContentService.GetEquipe` | services/contentService.js:58-60 | reads `equipe.json`; no other cache entry changes, and a returned payload is what the cache now holds under the file's current mtime |
| `ContentService.UpdateTarifsIsolated` | services/contentService.js:46-52 | `getTarifs` after `updateTarifs` returns the written list (same key `tarifs.json`), and the cached articles and team entries are untouched |
| `Text.Trim` | controllers/adminController.js:8 | `trim` yields the slice of the input that follows its leading whitespace and precedes its trailing whitespace; the result is empty exactly when the input is all JavaScript whitespace, and otherwise starts and ends with a non-space character |
| `Text.TrimIsTheOnlySuchSlice` | controllers/adminController.js:8 | any slice bounded by whitespace on both sides that neither starts nor ends with whitespace is the trimmed text, so the trim result is unique |
| `Text.ReplaceFirst` | controllers/adminController.js:8 | `replace(',', '.')` keeps the length, changes nothing when there is no comma, and otherwise changes only the first comma |
| `Text.StartsWithConcat` | middlewares/basicAuth.js:15-19 | `p + t` starts with `p` and the rest after the prefix is `t`; a text starting with `p` is `p` followed by its remainder, which is what `slice(6)` takes |
| `Text.IndexOf` | middlewares/basicAuth.js:27 | `indexOf(':')` is -1 exactly when there is no colon, and otherwise points at a colon with none before it |
| `PriceNormalizer.Clean` | controllers/adminController.js:8 | the normalised text is empty exactly when the raw text is all whitespace |
| `PriceNormalizer.RoundToCent` | controllers/adminController.js:18 | `Math.round(price * 100)` lies within half a cent of the price, halves rounding up |
| `PriceNormalizer.Normalize` | controllers/adminController.js:3-19 | only an absent value is `missing`; a value comes only from a finite non-negative parse, rounded to the nearest cent |
| `PriceNormalizer.NormalizeClassifies` | controllers/adminController.js:3-19 | the normaliser is total and its outcomes are exclusive: absent gives missing, all-whitespace gives empty, a non-finite or negative parse gives invalid, anything else gives a value |
| `PriceNormalizer.RoundToCentIsNearest` | controllers/adminController.js:18 | no whole number of cents is closer to the parsed price than the rounded one |
| `PriceNormalizer.RoundToCentKeepsCents` | controllers/adminController.js:18 | a price that is already a whole number of cents is unchanged by the rounding |
| `PriceNormalizer.NormalizeBlankCases` | controllers/adminController.js:4-11 | absent gives missing; `""` and a blank text give empty, whatever the parser |
| `PriceNormalizer.CleanDecimalComma` | controllers/adminController.js:8 | `"12,50"` reaches the parser as `"12.50"` |
| `PriceNormalizer.CleanSurroundingBlanks` | controllers/adminController.js:8 | `" 7 "` reaches the parser as `"7"` |
| `PriceNormalizer.CleanKeepsPlainText` | controllers/adminController.js:8 | a text with no comma and no surrounding whitespace reaches the parser unchanged |
| `PriceNormalizer.NormalizePlainText` | controllers/adminController.js:13-18 | such a text is invalid unless its parse is finite and non-negative, in which case it is rounded to the cent |
| `PriceNormalizer.NormalizeAcceptsDecimalComma` | controllers/adminController.js:8-18 | `"12,50"` gives 1250 cents |
| `PriceNormalizer.NormalizeAcceptsSurroundingBlanks` | controllers/adminController.js:8-18 | `" 7 "` gives 700 cents |
| `PriceNormalizer.NormalizeRoundsUp` | controllers/adminController.js:13-18 | `"9.999"` gives 1000 cents |
| `PriceNormalizer.NormalizeRejectsNegative` | controllers/adminController.js:13-16 | `"-3"` is invalid |
| `PriceNormalizer.NormalizeRejectsText` | controllers/adminController.js:13-16 | `"abc"` (parse is NaN) is invalid |
| `AdminController.VerdictOfSubmittedPrice` | controllers/adminController.js:43 | the per-id verdict `normalizePriceValue(prices[tarif.id])`: `missing` exactly when the submission has no entry for the id, `empty` exactly when that entry is blank, a value exactly when the cleaned entry parses to a finite non-negative number, rounded to the cent |
| `AdminController.ErrorsOf` | controllers/adminController.js:40-47 | at most one error per stored tariff; the list is empty exactly when every stored tariff is valid |
| `AdminController.ErrorsNameStoredTariffs` | controllers/adminController.js:42-47 | every error names a stored tariff and carries that tariff's own failure tag |
| `AdminController.ErrorsOfAppend` | controllers/adminController.js:40-47 | errors come out in stored order: the errors of a concatenation are the first part's followed by the second's |
| `AdminController.Reprice` | controllers/adminController.js:46-52 | the id and every property other than `price` are kept; `price` becomes the rounded value on success, and the tariff is unchanged on failure |
| `AdminController.Repriced` | controllers/adminController.js:42-53 | the mapped list has the stored list's length, and each element is that stored tariff repriced |
| `AdminController.Validate` | controllers/adminController.js:42-59 | rejected exactly when some stored tariff fails, with the full error list; when accepted, same length and order, same ids, and each tariff's properties are the stored ones with `price` set to its own value in cents over 100 |
| `AdminController.ValidateInOrder` | controllers/adminController.js:40-53 | the single pass that pushes errors and builds the mapped list reaches the same verdict as `Validate`; its loop body is the method `Visit`, the `map` callback of lines 43-52 |
| `AdminController.UpdateTarifs` | controllers/adminController.js:37-63 | a read failure or any validation error leaves the disk untouched, and the cache is left as the read left it; when every stored tariff is valid the list is saved exactly when `tarifs.json` is writable, and otherwise the response is the write's I/O error with cache and disk as the read left them; a save writes the validated list to `tarifs.json` and caches it under the new mtime; no other file or cache entry changes, and which paths are broken or locked does not change |
| `AdminController.ValidateIgnoresUnknownIds` | controllers/adminController.js:39-43 | two submissions that agree on every stored id get the same verdict, so ids that are not stored are ignored |
| `AdminController.NoPricesMeansAllMissing` | controllers/adminController.js:39-45 | with no `prices` in the body (`PricesOf`, i.e. `req.body.prices || {}`, then gives an empty submission), the error list is one `missing` per stored tariff, in stored order |
| `AdminController.RevalidateIsIdempotent` | controllers/adminController.js:42-53 | validating the same submission against the list it produced is accepted and yields that same list |
| `AdminController.RepriceIsIdempotent` | controllers/adminController.js:49-52 | spreading a tariff and setting `price` a second time with the same verdict gives back the same tariff |
| `AdminController.SaveThenRead` | controllers/adminController.js:55-62 | after a save, `getTarifs` returns the saved list from the cache |
| `AdminController.SecondIdenticalUpdate` | controllers/adminController.js:37-62 | submitting the same form twice in a row saves the same list twice |
| `AdminController.RejectionIsAtomic` | controllers/adminController.js:55-59 | for every cache, after a rejected submission the disk is unchanged and the next read returns the list the handler read, including prices that validated on their own; over a coherent cache and a readable file that is the list the file holds |
| `BasicAuth.SplitCredentials` | middlewares/basicAuth.js:27-33 | no colon gives no credentials; otherwise the decoded text is `user ":" password`, with a user name free of colons |
| `BasicAuth.Authorize` | middlewares/basicAuth.js:8-40 | the verdict is 500 exactly when a credential is unset (absent or empty); access is granted only through a header starting with `"Basic "` |
| `BasicAuth.AuthorizeGrantsExactly` | middlewares/basicAuth.js:14-39 | access is granted if and only if credentials are set, the header is `"Basic "` plus a token, and the token decodes to `user ":" password` with a colon-free user name |
| `BasicAuth.UnconfiguredAlwaysFails` | middlewares/basicAuth.js:9-12 | an absent or empty credential gives 500 for every header |
| `BasicAuth.NoBasicHeaderIsUnauthorized` | middlewares/basicAuth.js:14-17 | with credentials set, a missing header or one not starting with `"Basic "` gives 401 |
| `BasicAuth.NoColonIsUnauthorized` | middlewares/basicAuth.js:27-30 | a token that decodes to a text with no colon gives 401 |
| `BasicAuth.ColonInUserNeverGranted` | middlewares/basicAuth.js:32-35 | a configured user name containing a colon can never be matched |
| `BasicAuth.PasswordMayContainColons` | middlewares/basicAuth.js:32-39 | a decoded `"admin:a:b"` grants user `admin` with password `a:b` |

## Left out

- File paths: the cache is keyed by file name. `path.join(DATA_DIR, fileName)` and its normalisation are left out, because every caller passes a plain file name.
- The real `fs`, `JSON.parse` and `JSON.stringify` are replaced by the `Disk` value and codec parameters. Nothing assumes the written JSON parses back to the cached object. `ContentService.WriteJsonKeepsCoherence` takes that as an explicit hypothesis.
- Write-only files: a locked path refuses both reads and writes. A file that can be written but not read is not modelled.
- Concurrency:
  - The `Promise.all` of `readFile` and `stat` is one atomic step. When both fail, the read's error is the one reported.
  - Racing writers and requests that interleave at `await` points are left out.
  - A write is one atomic step, although `fs.writeFile` can leave a partial file.
- ContentService.WriteJson: within one atomic step, a `stat` right after a successful write always succeeds. So the branch where `stat` fails after the file was written (services/contentService.js:37), which leaves the cache unchanged, is kept but never reached.
- Modification times are integers. Node's `mtimeMs` is a fractional millisecond count, and only equality matters here.
- Payload types: the source keeps one `Map` holding every collection. The model's cache holds one payload type, instantiated as a tariff list by the handler. Operations never touch other paths (`ReadJson`, `WriteJson` ensure this), so this split loses nothing.
- Tariff file shape: a tariff is a string id plus any JSON properties. Two kinds of file are a parse failure of the read in the model:
  - valid JSON that is not an array: the source fails later with a `TypeError` in `tarifs.map`, so both surface as a 500;
  - an array holding an element that is not an object, or a tariff whose `id` is not a string (a number, or missing): the source looks such a tariff up under `String(id)` and can validate and save the file, where the model answers `ReadFailed`.
- Form values: a raw price is an optional string. `String(rawValue)` of arrays or objects, which extended body parsing can produce, is left out. So is a tariff id that names an `Object.prototype` property (`prices["constructor"]` is an inherited function, so it would be `invalid`, not `missing`).
- Floating point: `Number.parseFloat` is an abstract parameter returning NaN, an infinity or an exact real. IEEE-754 rounding of `price * 100` is not modelled: prices are exact, and the rounded value is a whole number of cents.
- AdminController.ValidateInOrder: receives the per-id verdict function (`Verdicts(prices, parse)` in the handler) rather than building it. `Validate` and `UpdateTarifs` use the same function.
- Rendering: `renderTarifEditor`, including the second `getTarifs` it performs after the handler (its read can refresh or evict the cache entry again), status codes set on the response object, the form values echoed back, the `WWW-Authenticate` header text, response bodies and `console.error` logging.
- Base64 decoding (`Buffer.from(..., 'base64').toString('utf8')`) is a parameter that may fail. Its lenient handling of malformed input and its UTF-8 replacement characters are not modelled.
- Wiring: `server.js`, `routes/*.js`, `config.js` environment lookup, `controllers/siteController.js`, `controllers/apiController.js` and `lib/mailer.js` have no algorithmic content. Mail delivery is network I/O.

=== FILE: admin_controller.dfy ===
/** The validate/merge/write logic of `updateTarifs` in
    `controllers/adminController.js`: normalise the submitted price of every
    STORED tariff, collect every failure in stored order, and write the
    repriced list through the content service only when nothing failed. */
module AdminController {
  import opened Wrappers
  import opened PriceNormalizer
  import opened ContentService
  import Text

  /** A JSON value as `JSON.parse` produces it; numbers are exact. */
  datatype Json =
    | JNull
    | JBool(b: bool)
    | JNumber(n: real)
    | JString(s: string)
    | JArray(items: seq<Json>)
    | JObject(members: map<string, Json>)

  /** A stored tariff: its string id and every other property (`price`,
      label, description, ...) by name, whatever JSON value it holds. */
  datatype Tariff = Tariff(id: string, fields: map<string, Json>)

  /** The property the handler overwrites. */
  const PriceField: string := "price"

  /** The JSON number stored for a count of cents: `Math.round(...) / 100`. */
  function PriceOf(cents: nat): Json {
    JNumber(cents as real / 100.0)
  }

  /** One `{ id, type }` entry of the controller's error list. */
  datatype FieldError = FieldError(id: string, kind: Failure)

  /** The submitted `prices` object: raw form text by tariff id. */
  type Prices = map<string, string>

  /** The verdict of the validation pass. */
  datatype Validation = Rejected(errors: seq<FieldError>) | Accepted(tariffs: seq<Tariff>)

  /** What the handler ends with: a throw from the read (500), the editor
      re-rendered with status 400 and the errors, a throw from the write
      (500), or the editor re-rendered after a successful save. */
  datatype Response =
    | ReadFailed(readError: FsError)
    | BadRequest(errors: seq<FieldError>)
    | WriteFailed(writeError: FsError)
    | Saved(tariffs: seq<Tariff>)

  /** The content-service state after the handler, and its response. */
  datatype Step = Step(cache: Cache<seq<Tariff>>, disk: Disk, response: Response)

  /** `req.body.prices || {}`. */
  function PricesOf(body: Option<Prices>): Prices {
    body.GetOr(map[])
  }

  /** `prices[tarif.id]`, `None` standing for `undefined`. */
  function RawPrice(prices: Prices, id: string): Option<string> {
    if id in prices then Some(prices[id]) else None
  }

  /** The normaliser's verdict for each tariff id, given the submission:
      `normalizePriceValue(prices[id])`. */
  function Verdicts(prices: Prices, parse: string -> Number): string -> Outcome {
    id => Normalize(RawPrice(prices, id), parse)
  }

  /** A tariff's verdict, classified by the submission: `missing` exactly
      when the submission has no entry for its id, `empty` exactly when that
      entry is blank, and a value exactly when the cleaned entry parses to a
      finite non-negative number, which is then rounded to the cent. */
  lemma VerdictOfSubmittedPrice(prices: Prices, parse: string -> Number, id: string)
    ensures
      var v := Verdicts(prices, parse)(id);
      && (v == Fail(Missing) <==> id !in prices)
      && (v == Fail(Empty) <==> id in prices && Text.AllSpace(prices[id]))
      && (v.Value? <==>
            id in prices && !Text.AllSpace(prices[id]) && Acceptable(parse(Clean(prices[id]))))
      && (v.Value? ==> v.cents == RoundToCent(parse(Clean(prices[id])).x))
  {
    NormalizeClassifies(RawPrice(prices, id), parse);
  }

  /** Every stored tariff has a valid submitted price. */
  ghost predicate AllValid(stored: seq<Tariff>, verdict: string -> Outcome) {
    forall i :: 0 <= i < |stored| ==> verdict(stored[i].id).Value?
  }

  /** The ids of a tariff list. */
  ghost function Ids(stored: seq<Tariff>): set<string> {
    set t | t in stored :: t.id
  }

  /** What `errors.push` adds for one tariff: nothing, or one `{ id, type }`. */
  function ErrorOf(t: Tariff, verdict: string -> Outcome): (r: seq<FieldError>)
    ensures r == [] <==> verdict(t.id).Value?
    ensures r != [] ==> r == [FieldError(t.id, verdict(t.id).kind)]
  {
    match verdict(t.id)
    case Fail(kind) => [FieldError(t.id, kind)]
    case Value(_) => []
  }

  /** The error list after visiting `stored` in order: at most one error
      per tariff, and none exactly when every tariff is valid. */
  function ErrorsOf(stored: seq<Tariff>, verdict: string -> Outcome): (errs: seq<FieldError>)
    ensures |errs| <= |stored|
    ensures errs == [] <==> AllValid(stored, verdict)
  {
    if |stored| == 0 then []
    else
      var init := stored[..|stored| - 1];
      var last := stored[|stored| - 1];
      assert forall i :: 0 <= i < |init| ==> init[i] == stored[i];
      ErrorsOf(init, verdict) + ErrorOf(last, verdict)
  }

  /** Every error names a stored tariff and carries that tariff's own
      failure tag. */
  lemma {:induction false} ErrorsNameStoredTariffs(stored: seq<Tariff>, verdict: string -> Outcome)
    ensures forall e :: e in ErrorsOf(stored, verdict) ==>
      e.id in Ids(stored) && verdict(e.id) == Fail(e.kind)
  {
    if |stored| > 0 {
      var init := stored[..|stored| - 1];
      var last := stored[|stored| - 1];
      assert stored == init + [last];
      assert Ids(stored) == Ids(init) + {last.id};
      ErrorsNameStoredTariffs(init, verdict);
    }
  }

  /** The tariff the `map` callback returns: unchanged on a failure, and
      `{ ...tarif, price }` with the rounded value on a success. */
  function Reprice(t: Tariff, verdict: string -> Outcome): (r: Tariff)
    ensures r.id == t.id
    ensures verdict(t.id).Value? ==>
      && PriceField in r.fields && r.fields[PriceField] == PriceOf(verdict(t.id).cents)
      && r.fields - {PriceField} == t.fields - {PriceField}
    ensures verdict(t.id).Fail? ==> r == t
  {
    match verdict(t.id)
    case Fail(_) => t
    case Value(cents) => t.(fields := t.fields[PriceField := PriceOf(cents)])
  }

  /** `tarifs.map(...)`: the whole list, repriced tariff by tariff. */
  function Repriced(stored: seq<Tariff>, verdict: string -> Outcome): (r: seq<Tariff>)
    ensures |r| == |stored|
    ensures forall i :: 0 <= i < |stored| ==> r[i] == Reprice(stored[i], verdict)
  {
    if |stored| == 0 then []
    else
      var init := stored[..|stored| - 1];
      Repriced(init, verdict) + [Reprice(stored[|stored| - 1], verdict)]
  }

  /** The all-or-nothing rule: any failure rejects the whole submission with
      every error; otherwise the list keeps its length, order, ids and other
      properties, and every price is the tariff's own verdict, in cents, over 100. */
  function Validate(stored: seq<Tariff>, verdict: string -> Outcome): (v: Validation)
    ensures v.Rejected? <==> !AllValid(stored, verdict)
    ensures v.Rejected? ==> v.errors == ErrorsOf(stored, verdict) && |v.errors| > 0
    ensures v.Accepted? ==>
      && |v.tariffs| == |stored|
      && forall i :: 0 <= i < |stored| ==>
           && v.tariffs[i].id == stored[i].id
           && verdict(stored[i].id).Value?
           && v.tariffs[i].fields == stored[i].fields[PriceField := PriceOf(verdict(stored[i].id).cents)]
  {
    var errs := ErrorsOf(stored, verdict);
    if |errs| > 0 then Rejected(errs) else Accepted(Repriced(stored, verdict))
  }

  /** The controller's own loop: one pass over the stored list that asks
      for each tariff's verdict (in the handler, `Verdicts(prices, parse)`,
      i.e. `normalizePriceValue(prices[tarif.id])`), pushes errors and builds
      the repriced list side by side, as `tarifs.map` with `errors.push`
      does; it reaches the same verdict as `Validate`. */
  method ValidateInOrder(stored: seq<Tariff>, verdict: string -> Outcome) returns (v: Validation)
    ensures v == Validate(stored, verdict)
  {
    var errors: seq<FieldError> := [];
    var updated: seq<Tariff> := [];
    var i := 0;
    while i < |stored|
      invariant 0 <= i <= |stored|
      invariant errors == ErrorsOf(stored[..i], verdict)
      invariant updated == Repriced(stored[..i], verdict)
    {
      ExtendPrefix(stored, i, verdict);
      errors, updated := Visit(errors, updated, stored[i], verdict);
      i := i + 1;
    }
    assert stored[..i] == stored;
    if |errors| > 0 {
      v := Rejected(errors);
    } else {
      v := Accepted(updated);
    }
  }

  /** The `map` callback for one tariff: on a failure push `{ id, type }`
      and keep the tariff, otherwise keep the errors and return
      `{ ...tarif, price }`; the same as appending `ErrorOf` and `Reprice`. */
  method Visit(errors: seq<FieldError>, updated: seq<Tariff>, t: Tariff, verdict: string -> Outcome)
    returns (errors': seq<FieldError>, updated': seq<Tariff>)
    ensures errors' == errors + ErrorOf(t, verdict)
    ensures updated' == updated + [Reprice(t, verdict)]
  {
    var result := verdict(t.id);
    if result.Fail? {
      errors' := errors + [FieldError(t.id, result.kind)];
      updated' := updated + [t];
    } else {
      errors' := errors;
      updated' := updated + [t.(fields := t.fields[PriceField := PriceOf(result.cents)])];
    }
  }

  /** One more tariff visited: its error (if any) and its repriced form are
      appended to what the prefix produced. */
  lemma ExtendPrefix(stored: seq<Tariff>, i: nat, verdict: string -> Outcome)
    requires i < |stored|
    ensures ErrorsOf(stored[..i + 1], verdict) == ErrorsOf(stored[..i], verdict) + ErrorOf(stored[i], verdict)
    ensures Repriced(stored[..i + 1], verdict) == Repriced(stored[..i], verdict) + [Reprice(stored[i], verdict)]
  {
    assert stored[..i + 1][..i] == stored[..i];
  }

  /** The whole `updateTarifs` handler over the content service: read the
      stored list through the cache, validate, and write through only when
      nothing failed. `stamp` is the clock reading the write records. */
  function UpdateTarifs(cache: Cache<seq<Tariff>>, disk: Disk, body: Option<Prices>,
                        parseNumber: string -> Number,
                        parseJson: string -> Option<seq<Tariff>>,
                        serialize: seq<Tariff> -> string, stamp: int): (s: Step)
    // the file store changes only when the response is a save
    ensures !s.response.Saved? ==> s.disk == disk
    // no other file and no other cache entry is touched
    ensures s.disk.files - {TarifsFile} == disk.files - {TarifsFile}
    ensures s.cache - {TarifsFile} == cache - {TarifsFile}
    ensures s.disk.broken == disk.broken && s.disk.locked == disk.locked
    ensures
      var read := GetTarifs(cache, disk, parseJson);
      var verdict := Verdicts(PricesOf(body), parseNumber);
      var writable := TarifsFile !in disk.broken && TarifsFile !in disk.locked;
      && (read.result.Failure? ==> s == Step(read.cache, disk, ReadFailed(read.result.error)))
      && (read.result.Success? && !AllValid(read.result.value, verdict) ==>
            s == Step(read.cache, disk, BadRequest(ErrorsOf(read.result.value, verdict))))
      && (read.result.Success? && AllValid(read.result.value, verdict) ==> (s.response.Saved? <==> writable))
      && (read.result.Success? && AllValid(read.result.value, verdict) && !writable ==>
            s == Step(read.cache, disk, WriteFailed(IoFailure)))
      && (s.response.WriteFailed? ==> s.cache == read.cache && s.disk == disk)
      && (s.response.Saved? ==>
            && read.result.Success?
            && Validate(read.result.value, verdict) == Accepted(s.response.tariffs)
            && s.cache == read.cache[TarifsFile := Entry(stamp, s.response.tariffs)]
            && s.disk.files == disk.files[TarifsFile := File(stamp, Payload(s.response.tariffs, serialize))])
  {
    var read := GetTarifs(cache, disk, parseJson);
    match read.result
    case Failure(e) => Step(read.cache, disk, ReadFailed(e))
    case Success(tarifs) =>
      match Validate(tarifs, Verdicts(PricesOf(body), parseNumber))
      case Rejected(errors) => Step(read.cache, disk, BadRequest(errors))
      case Accepted(updated) =>
        var w := ContentService.UpdateTarifs(read.cache, disk, updated, serialize, stamp);
        match w.result
        case Failure(e) => Step(w.cache, w.disk, WriteFailed(e))
        case Success(_) => Step(w.cache, w.disk, Saved(updated))
  }

  // ---------------------------------------------------------------------
  // Properties of the validation pass.

  /** Errors come out in stored order: validating a concatenation lists the
      first part's errors before the second's. */
  lemma {:induction false} ErrorsOfAppend(a: seq<Tariff>, b: seq<Tariff>, verdict: string -> Outcome)
    ensures ErrorsOf(a + b, verdict) == ErrorsOf(a, verdict) + ErrorsOf(b, verdict)
    decreases |b|
  {
    if |b| == 0 {
      assert a + b == a;
    } else {
      var init := b[..|b| - 1];
      var last := b[|b| - 1];
      assert (a + b)[..|a + b| - 1] == a + init;
      assert (a + b)[|a + b| - 1] == last;
      ErrorsOfAppend(a, init, verdict);
    }
  }

  /** Ids present in the request but absent from the stored list play no
      part: two submissions that agree on every stored id get the same
      verdict. */
  lemma ValidateIgnoresUnknownIds(stored: seq<Tariff>, p1: Prices, p2: Prices, parse: string -> Number)
    requires forall i :: 0 <= i < |stored| ==> RawPrice(p1, stored[i].id) == RawPrice(p2, stored[i].id)
    ensures Validate(stored, Verdicts(p1, parse)) == Validate(stored, Verdicts(p2, parse))
  {
    var v1, v2 := Verdicts(p1, parse), Verdicts(p2, parse);
    assert forall i :: 0 <= i < |stored| ==> v1(stored[i].id) == v2(stored[i].id);
    ErrorsAgree(stored, v1, v2);
    RepricedAgree(stored, v1, v2);
  }

  /** Two verdict functions that agree on every stored id give the same
      error list. */
  lemma {:induction false} ErrorsAgree(stored: seq<Tariff>, v1: string -> Outcome, v2: string -> Outcome)
    requires forall i :: 0 <= i < |stored| ==> v1(stored[i].id) == v2(stored[i].id)
    ensures ErrorsOf(stored, v1) == ErrorsOf(stored, v2)
  {
    if |stored| > 0 {
      var init := stored[..|stored| - 1];
      assert forall i :: 0 <= i < |init| ==> init[i] == stored[i];
      ErrorsAgree(init, v1, v2);
      assert ErrorOf(stored[|stored| - 1], v1) == ErrorOf(stored[|stored| - 1], v2);
    }
  }

  /** Two verdict functions that agree on every stored id give the same
      repriced list. */
  lemma {:induction false} RepricedAgree(stored: seq<Tariff>, v1: string -> Outcome, v2: string -> Outcome)
    requires forall i :: 0 <= i < |stored| ==> v1(stored[i].id) == v2(stored[i].id)
    ensures Repriced(stored, v1) == Repriced(stored, v2)
  {
    if |stored| > 0 {
      var init := stored[..|stored| - 1];
      assert forall i :: 0 <= i < |init| ==> init[i] == stored[i];
      RepricedAgree(init, v1, v2);
      assert Reprice(stored[|stored| - 1], v1) == Reprice(stored[|stored| - 1], v2);
    }
  }

  /** With no `prices` in the body every stored tariff is `missing`: one
      error per tariff, in stored order. */
  lemma {:induction false} NoPricesMeansAllMissing(stored: seq<Tariff>, parse: string -> Number)
    ensures ErrorsOf(stored, Verdicts(PricesOf(None), parse))
         == seq(|stored|, i requires 0 <= i < |stored| => FieldError(stored[i].id, Missing))
  {
    if |stored| > 0 {
      var init := stored[..|stored| - 1];
      NoPricesMeansAllMissing(init, parse);
    }
  }

  /** Submitting the same prices again against the list they produced is
      accepted and produces that same list. */
  lemma RevalidateIsIdempotent(stored: seq<Tariff>, verdict: string -> Outcome)
    requires AllValid(stored, verdict)
    ensures
      var once := Repriced(stored, verdict);
      Validate(once, verdict) == Accepted(once)
  {
    var once := Repriced(stored, verdict);
    assert AllValid(once, verdict) by {
      forall i | 0 <= i < |once| ensures verdict(once[i].id).Value? {
        assert once[i].id == stored[i].id;
      }
    }
    var twice := Repriced(once, verdict);
    forall i | 0 <= i < |once|
      ensures twice[i] == once[i]
    {
      RepriceIsIdempotent(stored[i], verdict);
    }
    assert twice == once;
  }

  /** Repricing a tariff a second time with the same verdict changes
      nothing: `price` is overwritten with the value it already holds. */
  lemma RepriceIsIdempotent(t: Tariff, verdict: string -> Outcome)
    ensures Reprice(Reprice(t, verdict), verdict) == Reprice(t, verdict)
  {
    if verdict(t.id).Value? {
      var v := PriceOf(verdict(t.id).cents);
      assert t.fields[PriceField := v][PriceField := v] == t.fields[PriceField := v];
    }
  }

  // ---------------------------------------------------------------------
  // Properties of the handler over the content service.

  /** After a save, reading the tariffs returns the saved list, straight from
      the cache. */
  lemma SaveThenRead(cache: Cache<seq<Tariff>>, disk: Disk, body: Option<Prices>,
                     parseNumber: string -> Number, parseJson: string -> Option<seq<Tariff>>,
                     serialize: seq<Tariff> -> string, stamp: int)
    ensures
      var s := UpdateTarifs(cache, disk, body, parseNumber, parseJson, serialize, stamp);
      s.response.Saved? ==> GetTarifs(s.cache, s.disk, parseJson) == Read(s.cache, Success(s.response.tariffs))
  {
  }

  /** Submitting the same form twice in a row saves the same list twice. */
  lemma SecondIdenticalUpdate(cache: Cache<seq<Tariff>>, disk: Disk, body: Option<Prices>,
                              parseNumber: string -> Number, parseJson: string -> Option<seq<Tariff>>,
                              serialize: seq<Tariff> -> string, stamp1: int, stamp2: int)
    ensures
      var s1 := UpdateTarifs(cache, disk, body, parseNumber, parseJson, serialize, stamp1);
      s1.response.Saved? ==>
        UpdateTarifs(s1.cache, s1.disk, body, parseNumber, parseJson, serialize, stamp2).response == s1.response
  {
    var s1 := UpdateTarifs(cache, disk, body, parseNumber, parseJson, serialize, stamp1);
    if s1.response.Saved? {
      var stored := GetTarifs(cache, disk, parseJson).result.value;
      RevalidateIsIdempotent(stored, Verdicts(PricesOf(body), parseNumber));
    }
  }

  /** A rejected submission changes nothing, whatever the cache holds: the
      file is untouched and the next read returns the list the handler read,
      including the prices that individually validated. Over a coherent
      cache and a readable file that is the list the file holds. */
  lemma RejectionIsAtomic(cache: Cache<seq<Tariff>>, disk: Disk, body: Option<Prices>,
                          parseNumber: string -> Number, parseJson: string -> Option<seq<Tariff>>,
                          serialize: seq<Tariff> -> string, stamp: int)
    ensures
      var s := UpdateTarifs(cache, disk, body, parseNumber, parseJson, serialize, stamp);
      var read := GetTarifs(cache, disk, parseJson);
      s.response.BadRequest? ==>
        && s.disk == disk
        && GetTarifs(s.cache, s.disk, parseJson).result == read.result
        && (Coherent(cache, disk, parseJson) && TarifsFile !in disk.locked ==>
              GetTarifs(s.cache, s.disk, parseJson).result == UncachedRead(disk, TarifsFile, parseJson))
  {
    var read := GetTarifs(cache, disk, parseJson);
    if Coherent(cache, disk, parseJson) {
      ReadJsonKeepsCoherence(cache, disk, TarifsFile, parseJson);
      ReadJsonIsTransparent(read.cache, disk, TarifsFile, parseJson);
    }
  }
}

=== FILE: basic_auth.dfy ===
/** The `basicAuth` middleware of `middlewares/basicAuth.js`: the decision
    it takes on one request, from the configured admin credentials and the
    request's `Authorization` header. Base64 decoding (`Buffer`) is a
    function parameter that may fail. */
module BasicAuth {
  import opened Wrappers
  import Text

  /** The three ways the middleware ends: status 500 (credentials not
      configured), status 401 with a `WWW-Authenticate` challenge, or
      `next()`. */
  datatype Verdict = Misconfigured | Unauthorized | Granted

  /** The scheme prefix the header must start with, space included. */
  const Scheme: string := "Basic "

  /** A configuration value counts as set when it is present and non-empty
      (JavaScript truthiness of a string). */
  predicate IsSet(v: Option<string>) {
    v.Some? && |v.value| > 0
  }

  /** `decoded.indexOf(':')` and the two slices around it: the user name is
      the text before the FIRST colon and the password everything after
      it, colons included; no colon, no credentials. */
  function SplitCredentials(decoded: string): (r: Option<(string, string)>)
    ensures r.None? <==> ':' !in decoded
    ensures r.Some? ==> decoded == r.value.0 + ":" + r.value.1 && ':' !in r.value.0
  {
    var i := Text.IndexOf(decoded, ':');
    if i == -1 then None
    else
      assert decoded == decoded[..i] + ":" + decoded[i + 1..];
      Some((decoded[..i], decoded[i + 1..]))
  }

  /** `basicAuth(req, res, next)`. */
  function Authorize(user: Option<string>, password: Option<string>, header: Option<string>,
                     decode: string -> Option<string>): (v: Verdict)
    ensures v == Misconfigured <==> !IsSet(user) || !IsSet(password)
    ensures v == Granted ==> header.Some? && Text.StartsWith(header.value, Scheme)
  {
    if !IsSet(user) || !IsSet(password) then Misconfigured
    else match header
      case None => Unauthorized
      case Some(authorization) =>
        if !Text.StartsWith(authorization, Scheme) then Unauthorized
        else match decode(authorization[|Scheme|..])
          case None => Unauthorized
          case Some(decoded) =>
            match SplitCredentials(decoded)
            case None => Unauthorized
            case Some((username, pass)) =>
              if username != user.value || pass != password.value then Unauthorized
              else Granted
  }

  /** Access is granted exactly when the credentials are configured, the
      header is `"Basic "` followed by a token, and the token decodes to
      `user ":" password`, with a user name that itself holds no colon. */
  lemma AuthorizeGrantsExactly(user: Option<string>, password: Option<string>, header: Option<string>,
                               decode: string -> Option<string>)
    ensures Authorize(user, password, header, decode) == Granted <==>
      && IsSet(user) && IsSet(password)
      && header.Some? && Text.StartsWith(header.value, Scheme)
      && decode(header.value[|Scheme|..]) == Some(user.value + ":" + password.value)
      && ':' !in user.value
  {
    if IsSet(user) && IsSet(password) && header.Some? && Text.StartsWith(header.value, Scheme) {
      var expected := user.value + ":" + password.value;
      if decode(header.value[|Scheme|..]) == Some(expected) && ':' !in user.value {
        Text.IndexOfAfterPrefix(user.value, ':', password.value);
        assert user.value + [':'] + password.value == expected;
        assert expected[..|user.value|] == user.value;
        assert expected[|user.value| + 1..] == password.value;
      }
    }
  }

  /** With either credential unset, every request gets a 500, whatever its
      header. `config.js` exports neither `ADMIN_USER` nor
      `ADMIN_PASSWORD`, so `basicAuth` gives this verdict for every request. */
  lemma UnconfiguredAlwaysFails(user: Option<string>, password: Option<string>, header: Option<string>,
                                decode: string -> Option<string>)
    requires user.None? || password.None? || user == Some("") || password == Some("")
    ensures Authorize(user, password, header, decode) == Misconfigured
  {
  }

  /** A missing header, or one without the `"Basic "` prefix (the match is
      case-sensitive), is refused with a 401 once credentials are set. */
  lemma NoBasicHeaderIsUnauthorized(user: Option<string>, password: Option<string>, header: Option<string>,
                                    decode: string -> Option<string>)
    requires IsSet(user) && IsSet(password)
    requires header.None? || !Text.StartsWith(header.value, Scheme)
    ensures Authorize(user, password, header, decode) == Unauthorized
  {
  }

  /** A decoded token with no colon is refused. */
  lemma NoColonIsUnauthorized(user: Option<string>, password: Option<string>, token: string,
                              decode: string -> Option<string>)
    requires IsSet(user) && IsSet(password)
    requires decode(token).Some? && ':' !in decode(token).value
    ensures Authorize(user, password, Some(Scheme + token), decode) == Unauthorized
  {
    assert (Scheme + token)[..|Scheme|] == Scheme;
    assert (Scheme + token)[|Scheme|..] == token;
  }

  /** A configured user name that contains a colon can never be matched,
      since the split always ends the user name at the first colon. */
  lemma ColonInUserNeverGranted(user: Option<string>, password: Option<string>, header: Option<string>,
                                decode: string -> Option<string>)
    requires user.Some? && ':' in user.value
    ensures Authorize(user, password, header, decode) != Granted
  {
    AuthorizeGrantsExactly(user, password, header, decode);
  }

  /** A password may itself contain colons: `"admin:a:b"` grants access to
      user `admin` with password `a:b`. */
  lemma PasswordMayContainColons(token: string, decode: string -> Option<string>)
    requires decode(token) == Some("admin:a:b")
    ensures Authorize(Some("admin"), Some("a:b"), Some(Scheme + token), decode) == Granted
  {
    assert (Scheme + token)[..|Scheme|] == Scheme;
    assert (Scheme + token)[|Scheme|..] == token;
    assert "admin" + ":" + "a:b" == "admin:a:b";
    AuthorizeGrantsExactly(Some("admin"), Some("a:b"), Some(Scheme + token), decode);
  }
}

=== FILE: content_service.dfy ===
/** The freshness cache of `services/contentService.js`: a per-file cache of
    parsed JSON keyed by file, revalidated on every read by comparing the
    file's modification time, written through on every write.

    The file system is an explicit value (`Disk`), the cache is an explicit
    value (`Cache`), and every operation is a pure transition returning the
    new state together with what the call returns or throws. The JSON codec
    is a pair of function parameters, so nothing is assumed about it. */
module ContentService {
  import opened Wrappers

  /** A data file, named as the service names it (`tarifs.json`, ...). */
  type Path = string

  /** The three collections the service exposes. */
  const TarifsFile: Path := "tarifs.json"
  const ArticlesFile: Path := "articles.json"
  const EquipeFile: Path := "equipe.json"

  /** What a file-system call or `JSON.parse` can throw. */
  datatype FsError = NotFound | IoFailure | ParseError

  /** A file on disk: its modification time (`mtimeMs`) and its text. */
  datatype File = File(mtime: int, text: string)

  /** The file store: the files that exist; the paths whose every access,
      `stat` included, fails with an I/O error (a failing device, a
      directory that cannot be searched, ...); and the paths that `stat`
      still reports but whose contents can be neither read nor written
      (mode 000, a directory in place of the file, ...). */
  datatype Disk = Disk(files: map<Path, File>, broken: set<Path>, locked: set<Path>)

  /** `fs.stat(p).mtimeMs`. */
  function Stat(disk: Disk, p: Path): (r: Result<int, FsError>)
    ensures r.Success? <==> p !in disk.broken && p in disk.files
    ensures r.Success? ==> r.value == disk.files[p].mtime
    ensures p in disk.broken ==> r == Failure(IoFailure)
    ensures p !in disk.broken && p !in disk.files ==> r == Failure(NotFound)
  {
    if p in disk.broken then Failure(IoFailure)
    else if p !in disk.files then Failure(NotFound)
    else Success(disk.files[p].mtime)
  }

  /** `fs.readFile(p, 'utf8')`. It fails whenever `Stat` fails, with the
      same error, and also on a locked file that `Stat` still reports. */
  function ReadFile(disk: Disk, p: Path): (r: Result<string, FsError>)
    ensures r.Success? <==> Stat(disk, p).Success? && p !in disk.locked
    ensures r.Success? ==> r.value == disk.files[p].text
    ensures Stat(disk, p).Failure? ==> r == Failure(Stat(disk, p).error)
    ensures Stat(disk, p).Success? && p in disk.locked ==> r == Failure(IoFailure)
  {
    if p in disk.broken then Failure(IoFailure)
    else if p !in disk.files then Failure(NotFound)
    else if p in disk.locked then Failure(IoFailure)
    else Success(disk.files[p].text)
  }

  /** `fs.writeFile(p, text)` at clock reading `stamp`: creates or wholly
      replaces the file, or fails leaving the disk as it was. */
  function WriteFile(disk: Disk, p: Path, text: string, stamp: int): (r: Result<Disk, FsError>)
    ensures r.Success? <==> p !in disk.broken && p !in disk.locked
    ensures r.Success? ==>
      && r.value.files == disk.files[p := File(stamp, text)]
      && r.value.broken == disk.broken && r.value.locked == disk.locked
  {
    if p in disk.broken || p in disk.locked then Failure(IoFailure)
    else Success(disk.(files := disk.files[p := File(stamp, text)]))
  }

  /** A cache entry: the modification time seen when `data` was installed. */
  datatype Entry<D> = Entry(mtime: int, data: D)

  /** The process-wide `dataCache` map. */
  type Cache<D> = map<Path, Entry<D>>

  /** The state after `readJson`, and what it returned or threw. */
  datatype Read<D> = Read(cache: Cache<D>, result: Result<D, FsError>)

  /** The state after `writeJson`, and what it returned or threw. */
  datatype Write<D> = Write(cache: Cache<D>, disk: Disk, result: Result<D, FsError>)

  /** What a cache-less read returns: read and stat the file, then parse it.
      Of two failures the read's is reported. */
  function UncachedRead<D>(disk: Disk, p: Path, parse: string -> Option<D>): (r: Result<D, FsError>)
    ensures r.Success? <==> Stat(disk, p).Success? && p !in disk.locked && parse(disk.files[p].text).Some?
    ensures r.Success? ==> parse(disk.files[p].text) == Some(r.value)
    ensures ReadFile(disk, p).Failure? ==> r == Failure(ReadFile(disk, p).error)
    ensures ReadFile(disk, p).Success? && parse(disk.files[p].text).None? ==> r == Failure(ParseError)
  {
    match ReadFile(disk, p)
    case Failure(e) => Failure(e)
    case Success(text) =>
      match Stat(disk, p)
      case Failure(e) => Failure(e)
      case Success(_) =>
        match parse(text)
        case None => Failure(ParseError)
        case Some(json) => Success(json)
  }

  /** The reload half of `readJson`: read, stat and parse, and on success
      install the parsed payload under the stat's modification time. A
      failure leaves the cache exactly as it was. */
  function Reload<D>(cache: Cache<D>, disk: Disk, p: Path, parse: string -> Option<D>): (r: Read<D>)
    ensures r.result == UncachedRead(disk, p, parse)
    ensures r.result.Success? ==> r.cache == cache[p := Entry(disk.files[p].mtime, r.result.value)]
    ensures r.result.Failure? ==> r.cache == cache
  {
    match ReadFile(disk, p)
    case Failure(e) => Read(cache, Failure(e))
    case Success(text) =>
      match Stat(disk, p)
      case Failure(e) => Read(cache, Failure(e))
      case Success(mtime) =>
        match parse(text)
        case None => Read(cache, Failure(ParseError))
        case Some(json) => Read(cache[p := Entry(mtime, json)], Success(json))
  }

  /** `readJson(p)`: with an entry for `p`, stat the file; a failing stat
      evicts the entry and rethrows, an unchanged mtime returns the cached
      payload without reading the file; otherwise reload. */
  function ReadJson<D>(cache: Cache<D>, disk: Disk, p: Path, parse: string -> Option<D>): (r: Read<D>)
    // only the entry for p can change
    ensures r.cache - {p} == cache - {p}
    // hit: same mtime, cached payload, no reload
    ensures p in cache && Stat(disk, p) == Success(cache[p].mtime) ==>
      r == Read(cache, Success(cache[p].data))
    // failing probe of an existing entry: evicted, error propagated
    ensures p in cache && Stat(disk, p).Failure? ==>
      r == Read(cache - {p}, Failure(Stat(disk, p).error))
    // miss or mismatch: what a cache-less read returns, installed on success
    ensures (p !in cache || (Stat(disk, p).Success? && Stat(disk, p).value != cache[p].mtime)) ==>
      && r.result == UncachedRead(disk, p, parse)
      && (r.result.Success? ==> r.cache == cache[p := Entry(disk.files[p].mtime, r.result.value)])
      && (r.result.Failure? ==> r.cache == cache)
    // whatever is returned is what the cache now holds under the current mtime
    ensures r.result.Success? ==>
      && p in r.cache && r.cache[p].data == r.result.value
      && Stat(disk, p) == Success(r.cache[p].mtime)
  {
    if p in cache then
      match Stat(disk, p)
      case Failure(e) => Read(cache - {p}, Failure(e))
      case Success(current) =>
        if current == cache[p].mtime then Read(cache, Success(cache[p].data))
        else Reload(cache, disk, p, parse)
    else Reload(cache, disk, p, parse)
  }

  /** The text `writeJson` puts on disk: the serialised payload and a newline. */
  function Payload<D>(d: D, serialize: D -> string): (r: string)
    ensures |r| == |serialize(d)| + 1 && r[|r| - 1] == '\n'
    ensures r[..|r| - 1] == serialize(d)
  {
    serialize(d) + "\n"
  }

  /** `writeJson(p, d)` at clock reading `stamp`: write the file, stat it,
      install `d` under the new mtime and return `d`. A failing write or
      stat throws and leaves the cache as it was. */
  function WriteJson<D>(cache: Cache<D>, disk: Disk, p: Path, d: D, serialize: D -> string, stamp: int): (r: Write<D>)
    ensures r.result.Success? <==> p !in disk.broken && p !in disk.locked
    ensures r.result.Success? ==>
      && r.result.value == d
      && r.cache == cache[p := Entry(stamp, d)]
      && r.disk.files == disk.files[p := File(stamp, Payload(d, serialize))]
    ensures r.result.Failure? ==> r.cache == cache && r.disk == disk
    ensures r.disk.broken == disk.broken && r.disk.locked == disk.locked
  {
    match WriteFile(disk, p, Payload(d, serialize), stamp)
    case Failure(e) => Write(cache, disk, Failure(e))
    case Success(written) =>
      match Stat(written, p)
      case Failure(e) => Write(cache, written, Failure(e))
      case Success(mtime) => Write(cache[p := Entry(mtime, d)], written, Success(d))
  }

  /** `clearCache()`. */
  function ClearCache<D>(): (r: Cache<D>)
    ensures forall p :: p !in r
  {
    map[]
  }

  /** `getTarifs()`: reads `tarifs.json` and no other entry. */
  function GetTarifs<D>(cache: Cache<D>, disk: Disk, parse: string -> Option<D>): (r: Read<D>)
    ensures r.cache - {TarifsFile} == cache - {TarifsFile}
    ensures r.result.Success? ==>
      && TarifsFile in r.cache && r.cache[TarifsFile].data == r.result.value
      && Stat(disk, TarifsFile) == Success(r.cache[TarifsFile].mtime)
  {
    ReadJson(cache, disk, TarifsFile, parse)
  }

  /** `updateTarifs(tarifs)`: writes `tarifs.json` and no other file or entry. */
  function UpdateTarifs<D>(cache: Cache<D>, disk: Disk, tarifs: D, serialize: D -> string, stamp: int): (r: Write<D>)
    ensures r.cache - {TarifsFile} == cache - {TarifsFile}
    ensures r.disk.files - {TarifsFile} == disk.files - {TarifsFile}
    ensures r.disk.broken == disk.broken && r.disk.locked == disk.locked
    ensures r.result.Success? <==> TarifsFile !in disk.broken && TarifsFile !in disk.locked
    ensures r.result.Success? ==>
      && r.result.value == tarifs
      && TarifsFile in r.cache && r.cache[TarifsFile] == Entry(stamp, tarifs)
      && TarifsFile in r.disk.files && r.disk.files[TarifsFile] == File(stamp, Payload(tarifs, serialize))
    ensures r.result.Failure? ==> r.cache == cache && r.disk == disk
  {
    WriteJson(cache, disk, TarifsFile, tarifs, serialize, stamp)
  }

  /** `getArticles()`: reads `articles.json` and no other entry. */
  function GetArticles<D>(cache: Cache<D>, disk: Disk, parse: string -> Option<D>): (r: Read<D>)
    ensures r.cache - {ArticlesFile} == cache - {ArticlesFile}
    ensures r.result.Success? ==>
      && ArticlesFile in r.cache && r.cache[ArticlesFile].data == r.result.value
      && Stat(disk, ArticlesFile) == Success(r.cache[ArticlesFile].mtime)
  {
    ReadJson(cache, disk, ArticlesFile, parse)
  }

  /** `getEquipe()`: reads `equipe.json` and no other entry. */
  function GetEquipe<D>(cache: Cache<D>, disk: Disk, parse: string -> Option<D>): (r: Read<D>)
    ensures r.cache - {EquipeFile} == cache - {EquipeFile}
    ensures r.result.Success? ==>
      && EquipeFile in r.cache && r.cache[EquipeFile].data == r.result.value
      && Stat(disk, EquipeFile) == Success(r.cache[EquipeFile].mtime)
  {
    ReadJson(cache, disk, EquipeFile, parse)
  }

  // ---------------------------------------------------------------------
  // Coherence: the cache is invisible to readers as long as every entry
  // whose mtime still matches its file holds what that file parses to.

  /** Every entry whose recorded mtime is the file's current mtime holds the
      payload that the file's current text parses to. */
  ghost predicate Coherent<D>(cache: Cache<D>, disk: Disk, parse: string -> Option<D>) {
    forall q :: q in cache && q in disk.files && disk.files[q].mtime == cache[q].mtime ==>
      parse(disk.files[q].text) == Some(cache[q].data)
  }

  /** Over a coherent cache, `readJson` of a file whose contents can be
      read returns exactly what a cache-less read would: the cache changes
      how often the file is parsed, never what the caller sees. A locked
      file is the exception (`LockedFileServedFromCache`). */
  lemma ReadJsonIsTransparent<D>(cache: Cache<D>, disk: Disk, p: Path, parse: string -> Option<D>)
    requires Coherent(cache, disk, parse)
    ensures p !in disk.locked ==> ReadJson(cache, disk, p, parse).result == UncachedRead(disk, p, parse)
  {
    if p in cache && Stat(disk, p) == Success(cache[p].mtime) {
      assert parse(disk.files[p].text) == Some(cache[p].data);
    }
  }

  /** A file that `stat` still reports but that can no longer be read
      (permissions removed without touching its mtime) keeps being served
      from the cache, whereas a cache-less read fails. */
  lemma LockedFileServedFromCache<D>(cache: Cache<D>, disk: Disk, p: Path, parse: string -> Option<D>)
    requires p in cache && p in disk.locked
    requires Stat(disk, p) == Success(cache[p].mtime)
    ensures ReadJson(cache, disk, p, parse) == Read(cache, Success(cache[p].data))
    ensures UncachedRead(disk, p, parse) == Failure(IoFailure)
  {
  }

  /** A changed mtime on a file that can no longer be read: the read throws
      and the stale entry stays in the cache, neither replaced nor evicted. */
  lemma FailedReloadKeepsStaleEntry<D>(cache: Cache<D>, disk: Disk, p: Path, parse: string -> Option<D>)
    requires p in cache && p in disk.locked
    requires Stat(disk, p).Success? && Stat(disk, p).value != cache[p].mtime
    ensures ReadJson(cache, disk, p, parse) == Read(cache, Failure(IoFailure))
  {
  }

  /** `readJson` keeps the cache coherent, whatever it returns. */
  lemma ReadJsonKeepsCoherence<D>(cache: Cache<D>, disk: Disk, p: Path, parse: string -> Option<D>)
    requires Coherent(cache, disk, parse)
    ensures Coherent(ReadJson(cache, disk, p, parse).cache, disk, parse)
  {
  }

  /** `writeJson` keeps the cache coherent when the written text parses back
      to the payload it installs; nothing in the service guarantees that. */
  lemma WriteJsonKeepsCoherence<D>(cache: Cache<D>, disk: Disk, p: Path, d: D,
                                  parse: string -> Option<D>, serialize: D -> string, stamp: int)
    requires Coherent(cache, disk, parse)
    requires parse(Payload(d, serialize)) == Some(d)
    ensures
      var w := WriteJson(cache, disk, p, d, serialize, stamp);
      Coherent(w.cache, w.disk, parse)
  {
  }

  /** An edit made behind the service's back: the file `p` gets new text and
      the clock reading `stamp` as its mtime. */
  function ExternalEdit(disk: Disk, p: Path, text: string, stamp: int): (r: Disk)
    ensures p in r.files && r.files[p] == File(stamp, text)
    ensures r.files - {p} == disk.files - {p}
    ensures r.broken == disk.broken && r.locked == disk.locked
  {
    disk.(files := disk.files[p := File(stamp, text)])
  }

  /** An outside edit that moves the file's mtime away from the cached one
      keeps the cache coherent, so the next read sees the edit. */
  lemma ExternalEditKeepsCoherence<D>(cache: Cache<D>, disk: Disk, p: Path, text: string, stamp: int,
                                      parse: string -> Option<D>)
    requires Coherent(cache, disk, parse)
    requires p in cache ==> cache[p].mtime != stamp
    ensures Coherent(cache, ExternalEdit(disk, p, text, stamp), parse)
  {
  }

  // ---------------------------------------------------------------------
  // Sequences of calls.

  /** A read immediately after a successful write returns exactly the
      written payload, from the cache, whatever the codec does. */
  lemma ReadAfterWrite<D>(cache: Cache<D>, disk: Disk, p: Path, d: D,
                          parse: string -> Option<D>, serialize: D -> string, stamp: int)
    requires p !in disk.broken && p !in disk.locked
    ensures
      var w := WriteJson(cache, disk, p, d, serialize, stamp);
      ReadJson(w.cache, w.disk, p, parse) == Read(w.cache, Success(d))
  {
  }

  /** Staleness detection: when the file behind an entry is edited with a
      new mtime, the next read reloads and returns the edited content. */
  lemma ReadSeesExternalEdit<D>(cache: Cache<D>, disk: Disk, p: Path, text: string, stamp: int,
                                parse: string -> Option<D>, d: D)
    requires p !in disk.broken && p !in disk.locked
    requires p in cache ==> cache[p].mtime != stamp
    requires parse(text) == Some(d)
    ensures
      var edited := ExternalEdit(disk, p, text, stamp);
      ReadJson(cache, edited, p, parse) == Read(cache[p := Entry(stamp, d)], Success(d))
  {
  }

  /** A blind spot of mtime-based revalidation: an edit that leaves the mtime unchanged (two
      writes within one clock tick) is not seen; the stale payload is served
      although the file now parses to something else. */
  lemma SameMtimeEditIsMissed<D>(cache: Cache<D>, disk: Disk, p: Path, text: string,
                                 parse: string -> Option<D>)
    requires p !in disk.broken && p in cache
    requires parse(text) != Some(cache[p].data)
    ensures
      var edited := ExternalEdit(disk, p, text, cache[p].mtime);
      && ReadJson(cache, edited, p, parse).result == Success(cache[p].data)
      && !Coherent(cache, edited, parse)
  {
  }

  /** After `clearCache`, every read goes to the file and returns what a
      cache-less read returns. */
  lemma ReadAfterClearReloads<D>(disk: Disk, p: Path, parse: string -> Option<D>)
    ensures ReadJson(ClearCache<D>(), disk, p, parse).result == UncachedRead(disk, p, parse)
  {
  }

  /** Writing the tariffs never touches the cached articles or team roster,
      and a read of the tariffs after the write returns the written list. */
  lemma UpdateTarifsIsolated<D>(cache: Cache<D>, disk: Disk, tarifs: D,
                                parse: string -> Option<D>, serialize: D -> string, stamp: int)
    requires TarifsFile !in disk.broken && TarifsFile !in disk.locked
    ensures
      var w := UpdateTarifs(cache, disk, tarifs, serialize, stamp);
      && GetTarifs(w.cache, w.disk, parse).result == Success(tarifs)
      && (ArticlesFile in w.cache <==> ArticlesFile in cache)
      && (ArticlesFile in cache ==> w.cache[ArticlesFile] == cache[ArticlesFile])
      && (EquipeFile in w.cache <==> EquipeFile in cache)
      && (EquipeFile in cache ==> w.cache[EquipeFile] == cache[EquipeFile])
  {
  }
}

=== FILE: price_normalizer.dfy ===
/** `normalizePriceValue` of `controllers/adminController.js`: classifies
    one raw form value as missing, empty, invalid, or a price rounded to
    the cent.

    Numbers are exact reals and a price is a whole number of cents.
    `Number.parseFloat` is a function parameter: the model fixes only what
    the normaliser does with its result. */
module PriceNormalizer {
  import opened Wrappers
  import Text

  /** What `Number.parseFloat` can return: `NaN` (no numeric prefix), an
      infinity, or a finite number. */
  datatype Number = NaN | Infinity(negative: bool) | Finite(x: real)

  /** The failure tags the controller reports. */
  datatype Failure = Missing | Empty | Invalid

  /** `{ error }` or `{ value }`, the value being a count of cents. */
  datatype Outcome = Fail(kind: Failure) | Value(cents: nat)

  /** The text handed to the parser: trimmed, first comma turned into a point. */
  function Clean(raw: string): (r: string)
    ensures |r| == |Text.Trim(raw)|
    ensures r == [] <==> Text.AllSpace(raw)
  {
    Text.ReplaceFirst(Text.Trim(raw), ',', '.')
  }

  /** A finite, non-negative parse result: the only kind that yields a price. */
  predicate Acceptable(n: Number) {
    n.Finite? && n.x >= 0.0
  }

  /** `Math.round(x * 100)` for `x >= 0`, i.e. `floor(100 x + 1/2)`: the
      cent count nearest to `x`, halves rounded up. */
  function RoundToCent(x: real): (cents: nat)
    requires x >= 0.0
    ensures x * 100.0 - 0.5 < cents as real <= x * 100.0 + 0.5
  {
    (x * 100.0 + 0.5).Floor
  }

  /** `normalizePriceValue(rawValue)`, `None` standing for `undefined`.
      Only `undefined` is missing; a value is a finite non-negative parse
      result rounded to the nearest cent. */
  function Normalize(raw: Option<string>, parse: string -> Number): (r: Outcome)
    ensures r == Fail(Missing) <==> raw.None?
    ensures r.Value? ==>
      && raw.Some? && Acceptable(parse(Clean(raw.value)))
      && var x := parse(Clean(raw.value)).x;
         x * 100.0 - 0.5 < r.cents as real <= x * 100.0 + 0.5
  {
    match raw
    case None => Fail(Missing)
    case Some(text) =>
      var normalized := Clean(text);
      if |normalized| == 0 then Fail(Empty)
      else
        var price := parse(normalized);
        if !price.Finite? || price.x < 0.0 then Fail(Invalid)
        else Value(RoundToCent(price.x))
  }

  /** The normaliser is total and its four outcomes are exclusive: a blank
      text (empty or all whitespace) is empty, a text whose parse is not a
      finite non-negative number is invalid, and every other text is a
      value. */
  lemma NormalizeClassifies(raw: Option<string>, parse: string -> Number)
    ensures
      var r := Normalize(raw, parse);
      && (r == Fail(Missing) <==> raw.None?)
      && (r == Fail(Empty) <==> raw.Some? && Text.AllSpace(raw.value))
      && (r == Fail(Invalid) <==>
            raw.Some? && !Text.AllSpace(raw.value) && !Acceptable(parse(Clean(raw.value))))
      && (r.Value? <==> raw.Some? && !Text.AllSpace(raw.value) && Acceptable(parse(Clean(raw.value))))
  {
  }

  /** Rounding to the nearest integer, stated without multiplication: a
      whole number `r` within half a unit of `y` is at least as close to `y`
      as any other whole number `c`. */
  lemma NearestInteger(y: real, r: int, c: int)
    requires y - 0.5 < r as real <= y + 0.5
    ensures
      var d := r as real - y;
      var e := c as real - y;
      (if d < 0.0 then -d else d) <= (if e < 0.0 then -e else e)
  {
    if c > r {
      assert c as real >= r as real + 1.0;
    } else if c < r {
      assert c as real <= r as real - 1.0;
    }
  }

  /** The rounded price is the nearest cent: no whole number of cents is
      closer to the parsed value. */
  lemma RoundToCentIsNearest(x: real, c: int)
    requires x >= 0.0
    ensures
      var d := RoundToCent(x) as real - x * 100.0;
      var e := c as real - x * 100.0;
      (if d < 0.0 then -d else d) <= (if e < 0.0 then -e else e)
  {
    NearestInteger(x * 100.0, RoundToCent(x), c);
  }

  /** A price that is already a whole number of cents is left unchanged by
      the rounding. */
  lemma RoundToCentKeepsCents(c: nat)
    ensures RoundToCent(c as real / 100.0) == c
  {
    var x := c as real / 100.0;
    assert x * 100.0 == c as real;
  }

  /** Literal cases: absent, empty and blank inputs, whatever the parser. */
  lemma NormalizeBlankCases(parse: string -> Number)
    ensures Normalize(None, parse) == Fail(Missing)
    ensures Normalize(Some(""), parse) == Fail(Empty)
    ensures Normalize(Some(" \t\n"), parse) == Fail(Empty)
  {
    assert Text.AllSpace(" \t\n");
  }

  /** `"12,50"` reaches the parser as `"12.50"`: only the comma changes. */
  lemma CleanDecimalComma()
    ensures Clean("12,50") == "12.50"
  {
    assert Text.Trim("12,50") == "12,50" by {
      assert Text.SkipSpace("12,50", 0) == 0;
      assert Text.SkipSpaceBack("12,50", 0, 5) == 5;
    }
    assert Text.IndexOf("12,50", ',') == 2 by {
      Text.IndexOfAfterPrefix("12", ',', "50");
      assert "12" + [','] + "50" == "12,50";
    }
  }

  /** `" 7 "` reaches the parser as `"7"`: surrounding blanks are trimmed. */
  lemma CleanSurroundingBlanks()
    ensures Clean(" 7 ") == "7"
  {
    assert Text.Trim(" 7 ") == "7" by {
      assert Text.SkipSpace(" 7 ", 1) == 1;
      assert Text.SkipSpace(" 7 ", 0) == 1;
      assert Text.SkipSpaceBack(" 7 ", 1, 2) == 2;
      assert Text.SkipSpaceBack(" 7 ", 1, 3) == 2;
    }
    assert ',' !in "7";
  }

  /** A text that neither starts nor ends with whitespace and holds no comma
      reaches the parser unchanged. */
  lemma CleanKeepsPlainText(s: string)
    requires |s| > 0 && !Text.IsJsSpace(s[0]) && !Text.IsJsSpace(s[|s| - 1])
    requires ',' !in s
    ensures Clean(s) == s
  {
    assert Text.SkipSpace(s, 0) == 0;
    assert Text.SkipSpaceBack(s, 0, |s|) == |s|;
    assert s[0..|s|] == s;
  }

  /** Such a text is judged on its parse alone: invalid unless the parse is
      a finite non-negative number, which is then rounded to the cent. */
  lemma NormalizePlainText(s: string, parse: string -> Number)
    requires |s| > 0 && !Text.IsJsSpace(s[0]) && !Text.IsJsSpace(s[|s| - 1])
    requires ',' !in s
    ensures Normalize(Some(s), parse) ==
      if Acceptable(parse(s)) then Value(RoundToCent(parse(s).x)) else Fail(Invalid)
  {
    CleanKeepsPlainText(s);
  }

  /** `"9.999"` rounds half-up to 10.00. */
  lemma NormalizeRoundsUp(parse: string -> Number)
    requires parse("9.999") == Finite(9.999)
    ensures Normalize(Some("9.999"), parse) == Value(1000)
  {
    NormalizePlainText("9.999", parse);
    assert RoundToCent(9.999) == 1000;
  }

  /** `"12,50"` is accepted as 12.50, i.e. 1250 cents. */
  lemma NormalizeAcceptsDecimalComma(parse: string -> Number)
    requires parse("12.50") == Finite(12.5)
    ensures Normalize(Some("12,50"), parse) == Value(1250)
  {
    CleanDecimalComma();
    assert RoundToCent(12.5) == 1250;
  }

  /** `" 7 "` is accepted as 7.00, i.e. 700 cents. */
  lemma NormalizeAcceptsSurroundingBlanks(parse: string -> Number)
    requires parse("7") == Finite(7.0)
    ensures Normalize(Some(" 7 "), parse) == Value(700)
  {
    CleanSurroundingBlanks();
    assert RoundToCent(7.0) == 700;
  }

  /** A negative number is invalid. */
  lemma NormalizeRejectsNegative(parse: string -> Number)
    requires parse("-3") == Finite(-3.0)
    ensures Normalize(Some("-3"), parse) == Fail(Invalid)
  {
    NormalizePlainText("-3", parse);
  }

  /** A text with no numeric prefix is invalid. */
  lemma NormalizeRejectsText(parse: string -> Number)
    requires parse("abc") == NaN
    ensures Normalize(Some("abc"), parse) == Fail(Invalid)
  {
    NormalizePlainText("abc", parse);
  }
}

=== FILE: text.dfy ===
/** The JavaScript string primitives the core relies on, over `seq<char>`:
    `trim`, `indexOf` of one character, `replace` of a one-character
    string pattern (which replaces only the first occurrence) and `startsWith`. */
module Text {

  /** The code points `String.prototype.trim` strips: ECMAScript's
      WhiteSpace (tab, vertical tab, form feed, space, no-break space,
      byte-order mark and the Unicode space separators) and LineTerminator
      (line feed, carriage return, line and paragraph separators). */
  predicate IsJsSpace(c: char) {
    || ('\t' <= c <= '\r')  // tab, line feed, vertical tab, form feed, carriage return
    || c == ' '
    || ('\U{A0}' <= c && (
         || c == '\U{A0}' || c == '\U{1680}' || ('\U{2000}' <= c <= '\U{200A}')
         || c == '\U{2028}' || c == '\U{2029}' || c == '\U{202F}' || c == '\U{205F}'
         || c == '\U{3000}' || c == '\U{FEFF}'))
  }

  /** Every character of `s` is trimmable whitespace. */
  predicate AllSpace(s: string) {
    forall i :: 0 <= i < |s| ==> IsJsSpace(s[i])
  }

  /** The position of the first non-whitespace character at or after `i`,
      or `|s|` when there is none. */
  function SkipSpace(s: string, i: nat): (k: nat)
    requires i <= |s|
    ensures i <= k <= |s|
    ensures forall j :: i <= j < k ==> IsJsSpace(s[j])
    ensures k < |s| ==> !IsJsSpace(s[k])
    decreases |s| - i
  {
    if i < |s| && IsJsSpace(s[i]) then SkipSpace(s, i + 1) else i
  }

  /** Scanning back from `j`, never below `lo`: the end of `s[lo..j]` once
      its trailing whitespace is dropped. */
  function SkipSpaceBack(s: string, lo: nat, j: nat): (e: nat)
    requires lo <= j <= |s|
    ensures lo <= e <= j
    ensures forall m :: e <= m < j ==> IsJsSpace(s[m])
    ensures e > lo ==> !IsJsSpace(s[e - 1])
  {
    if j > lo && IsJsSpace(s[j - 1]) then SkipSpaceBack(s, lo, j - 1) else j
  }

  /** `String.prototype.trim`: the slice `s[k..k + |r|]` between an
      all-whitespace prefix of `k` characters (`k` being the number of
      leading whitespace characters) and an all-whitespace suffix; it is
      empty exactly when `s` is all whitespace, and otherwise starts and
      ends with a non-space character. */
  function Trim(s: string): (r: string)
    ensures var k := SkipSpace(s, 0);
      && k + |r| <= |s| && r == s[k..k + |r|]
      && (forall i :: 0 <= i < k ==> IsJsSpace(s[i]))
      && (forall i :: k + |r| <= i < |s| ==> IsJsSpace(s[i]))
    ensures r == [] <==> AllSpace(s)
    ensures r != [] ==> !IsJsSpace(r[0]) && !IsJsSpace(r[|r| - 1])
  {
    var k := SkipSpace(s, 0);
    var e := SkipSpaceBack(s, k, |s|);
    s[k..e]
  }

  /** The trimmed text is the only slice of `s` that is bounded by
      whitespace on both sides and neither starts nor ends with any. */
  lemma {:induction false} TrimIsTheOnlySuchSlice(s: string, k: nat, n: nat)
    requires k + n <= |s|
    requires forall i :: 0 <= i < k ==> IsJsSpace(s[i])
    requires forall i :: k + n <= i < |s| ==> IsJsSpace(s[i])
    requires n > 0 ==> !IsJsSpace(s[k]) && !IsJsSpace(s[k + n - 1])
    ensures Trim(s) == s[k..k + n]
  {
    var r := Trim(s);
    if n == 0 {
      assert AllSpace(s) by {
        forall i | 0 <= i < |s| ensures IsJsSpace(s[i]) {
          if i < k {} else {}
        }
      }
    } else {
      assert SkipSpace(s, 0) == k;
      assert |r| == n;
    }
  }

  /** `s.indexOf(c)`: the position of the first `c` in `s`, or -1 when there is none. */
  function IndexOf(s: string, c: char): (r: int)
    ensures -1 <= r < |s|
    ensures r == -1 <==> c !in s
    ensures r >= 0 ==> s[r] == c && c !in s[..r]
  {
    if |s| == 0 then -1
    else if s[0] == c then 0
    else
      var k := IndexOf(s[1..], c);
      assert s == [s[0]] + s[1..];
      if k == -1 then -1
      else
        assert s[..k + 1] == [s[0]] + s[1..][..k];
        k + 1
  }

  /** When `c` does not occur in `a`, the first `c` of `a + [c] + b` is the one after `a`. */
  lemma {:induction false} IndexOfAfterPrefix(a: string, c: char, b: string)
    requires c !in a
    ensures IndexOf(a + [c] + b, c) == |a|
  {
    var s := a + [c] + b;
    assert s[|a|] == c;
    assert s[..|a|] == a;
  }

  /** `s.replace(a, b)` with a one-character string pattern: only the FIRST
      occurrence of `a` becomes `b`; later ones are kept. */
  function ReplaceFirst(s: string, a: char, b: char): (r: string)
    ensures |r| == |s|
    ensures a !in s ==> r == s
    ensures a in s ==>
      var i := IndexOf(s, a);
      r[i] == b && r[..i] == s[..i] && r[i + 1..] == s[i + 1..]
  {
    var i := IndexOf(s, a);
    if i < 0 then s else s[..i] + [b] + s[i + 1..]
  }

  /** `s.startsWith(p)`. */
  predicate StartsWith(s: string, p: string) {
    |p| <= |s| && s[..|p|] == p
  }

  /** `p + t` starts with `p`, and what follows the prefix is `t`; a text
      starts with `p` only when it is `p` followed by the rest of it. */
  lemma StartsWithConcat(p: string, t: string, s: string)
    ensures StartsWith(p + t, p) && (p + t)[|p|..] == t
    ensures StartsWith(s, p) ==> s == p + s[|p|..]
  {
    assert (p + t)[..|p|] == p;
    if StartsWith(s, p) {
      assert s == s[..|p|] + s[|p|..];
    }
  }
}

=== FILE: wrappers.dfy ===
/** Failure-carrying datatypes shared by the rest of the model. */
module Wrappers {

  /** A value that may be absent: JavaScript's `undefined` becomes `None`. */
  datatype Option<+T> = None | Some(value: T) {

    /** The carried value, or `default` when there is none. */
    function GetOr(default: T): T {
      match this
      case Some(v) => v
      case None => default
    }
  }

  /** The outcome of a call that may throw: `Failure` carries what was thrown. */
  datatype Result<+R, +E> = Success(value: R) | Failure(error: E)
}
